=== FILE: README.md ===
# ChatGLM4Tools intent router — a Dafny model

ChatGLM4Tools routes a user request to one of three tools: search-and-answer
(`搜索问答`), drawing (`绘画`) and speech (`语音`). A language model is asked
which tool fits the request. The agent keeps the registered tool names that occur
in the model's reply and orders them by their first occurrence. It then plans one
call on the first of them, passing the request through unchanged. Each tool's
`_run` hands the query to its own `_call_api`.

This project models the deterministic string logic of that loop. Every reply from
the language model and every decoded HTTP body is an input value:

- `Agent`: `IntentAgent.choose_tools` and `IntentAgent.plan`. The substring match
  and the `index` tags are modelled, and so is the stable sort by first
  occurrence. Each candidate also carries its registry position, written `pos`.
  The sort never reads it, but it lets stability be stated: the result is in
  strictly increasing (first occurrence, registry position) order.
- `Search`: `SearchTool.get_search_result`. It truncates to `top_k = 5`, renders
  each item as `title + "。"` then `snippet`, and joins with `"\n\n"`. An empty or
  missing `items` list gives the fixed message.
- `Audio`: `re.search(r"<.+>", query)` written out as a string function. The match
  starts at the leftmost `<` that has a `>` at least two places further on the
  same line, and it ends at the last such `>`. The speech text is what lies
  between them. With no match, `_call_api` returns `None`.
- `Draw`: the prompt suffix, the request body, the image file names and the fixed
  reply.
- `Notices`: the reply text `图片保存在{path}下`, shared by the drawing and speech
  tools.
- `Translate`: the Baidu request. It holds the signing string
  `appid + text + str(salt) + appkey` and the salt range [32768, 65536]. The md5
  digest is a parameter. It also reads `r["trans_result"][0]["dst"]`.
- `Tools`: the tool kinds, their names, `_call_api` for each kind, and the
  delegation `APITool._run`. It also holds the three-tool registry of `run.py`.
- `Strings`, `Wrappers`: Python's `in`, `find`, `index`, `join`, `split` and
  `str(n)`. Also `Option`, and `Result` in place of exceptions.

Python exceptions are `Failure(IndexError)`, `Failure(KeyError)` and
`Failure(NotImplemented)`. The speech tool's `None` is `Success(None)`. The audio
tool reports `图片保存在{path}下` ("image saved in") for an audio file. This is
modelled as written.

## Model

| member | source | states |
|---|---|---|
| `Strings.FindFrom` | agent.py:47 | the result is the first position at or after `k` where the name occurs, or none when it occurs nowhere from `k` on |
| `Strings.Find` | agent.py:47 | `name in resp` holds exactly when a position is found; that position is an occurrence and no earlier position is one |
| `Strings.Index` | agent.py:47 | `resp.index(name)` is an occurrence of `name` and is at or before every other occurrence |
| `Strings.JoinSplit` | tools.py:121 | splitting on a separator and joining again gives back any string |
| `Strings.JoinLayout` | tools.py:121 | `sep.join(parts)` is the parts laid end to end: part `k` starts after the widths of the earlier parts and one separator each, a separator follows every part but the last, and the length is exactly that, so nothing else is in the string |
| `Strings.JoinEnds` | tools.py:121 | a join starts with its first part and ends with its last |
| `Strings.SplitJoin` | tools.py:121 | joining parts that lack the separator's first character and then splitting gives back the parts |
| `Strings.ParseDecimalOfDecimal` | tools.py:35 | `str(n)` read back as a number is `n` |
| `Strings.DecimalInjective` | tools.py:162 | different numbers have different decimal strings |
| `Strings.DecimalFiveDigits` | tools.py:34-35 | numbers from 10000 to 99999 are written with five digits |
| `Agent.Matches` | agent.py:47 | each kept candidate is the registry name at its position, tagged with that name's first occurrence; candidates keep registry order; there are at most as many as names |
| `Agent.MatchesComplete` | agent.py:47 | every registered name occurring in the reply is kept |
| `Agent.Insert` | agent.py:48 | insertion adds exactly one copy of the candidate and loses nothing |
| `Agent.InsertRanked` | agent.py:48 | inserting a later-registered candidate into a ranked list keeps it ranked by (occurrence, registration) |
| `Agent.SortByOccurrence` | agent.py:48 | the sort is a permutation of its input |
| `Agent.SortRanked` | agent.py:48 | sorting candidates listed in registry order yields strictly increasing (occurrence, registration) order, i.e. the sort is stable |
| `Agent.Rank` | agent.py:45-48 | the ranked candidates are tagged correctly and strictly ordered; a registry position appears exactly when its name occurs in the reply; no more candidates than names |
| `Agent.SortTagged` | agent.py:48 | sorting keeps every candidate correctly tagged |
| `Agent.SortComplete` | agent.py:47-48 | after sorting, a registry position is present exactly when its name occurs in the reply |
| `Agent.NamesOf` | agent.py:49 | the result lists the candidates' names in order |
| `Agent.ChooseTools` | agent.py:43-49 | every result is a registered name; a registered name is in the result exactly when it occurs in the reply; the result is non-decreasing in first occurrence; it is no longer than the registry; with distinct registered names it has no repeats; and it is exactly the names of a ranking that holds one entry per registry position whose name occurs, in (first occurrence, registry position) order, so a name registered twice is chosen twice and ties keep registration order |
| `Agent.ChooseToolsStable` | agent.py:45-48 | of two chosen names tied on first occurrence, the earlier one is registered at some position before a registration of the later one |
| `Agent.RepeatedNameKept` | agent.py:43-49 | with `a`, `ab`, `a` registered and the reply `xab`, all three tie on first occurrence and the result is `a`, `ab`, `a`: the repeat is kept and the tie keeps registration order |
| `Agent.ChooseToolsSingle` | agent.py:43-49 | with distinct names and exactly one occurring in the reply, the result is that name alone |
| `Agent.ChooseToolsPair` | agent.py:43-49 | with distinct names and exactly two occurring, the result is both, the earlier occurrence first |
| `Agent.Plan` | agent.py:55-60 | planning fails with `IndexError` exactly when no registered name occurs in the reply; otherwise the action's input is the original input, its log is empty, and its tool is a registered name occurring in the reply; no other occurring name is earlier, and on a tie it is the earliest registered |
| `Translate.SaltFiveDigits` | tools.py:34-35 | every salt `randint(32768, 65536)` can draw is written with five digits |
| `Translate.SignInput` | tools.py:35 | the signing string starts with the app id, then the text, and ends with the app key; what lies between is all digits and reads back as the salt |
| `Translate.SignInputRecoversSalt` | tools.py:34-35 | the signing string is app id, text, five salt digits and app key, in that order, and the digits read back as the salt |
| `Translate.SignInputInjective` | tools.py:34-35 | for fixed credentials and text, different salts give different signing strings |
| `Translate.Request` | tools.py:34-44 | the request carries the text, the app id, `zh` to `en`, the drawn salt itself, which lies in [32768, 65536], and the digest of the signing string for that salt |
| `Translate.ReadReply` | tools.py:45-47 | the first `dst` is returned when `trans_result` is present, non-empty and its first entry has `dst`; an empty list raises `IndexError`, anything else missing raises `KeyError` |
| `Search.Used` | tools.py:110 | at most `top_k` = 5 items are used: a prefix of `items`, all of them when there are fewer, and none when the key is missing |
| `Search.Render` | tools.py:114-120 | a rendered item starts with the title and `。` when there is a title, and ends with the snippet when there is one; its length is the sum of these parts, so an item with neither renders empty |
| `Search.RenderAll` | tools.py:114-120 | each used item is rendered, in order |
| `Search.SearchResult` | tools.py:110-113 | an empty or missing `items` list gives exactly `No Search Result was found` |
| `Search.SearchResultPieces` | tools.py:110-121 | with results free of line breaks, cutting the output at `"\n\n"` gives back the rendered items in their original order, one per used item, at most five |
| `Search.SearchResultLayout` | tools.py:114-121 | with results, and whatever their text holds, the output lays the rendered results end to end in order with `"\n\n"` between each two and nothing else |
| `Search.OnlyTopKMatter` | tools.py:110 | items after the fifth do not change the output |
| `Search.SearchResultEnds` | tools.py:114-121 | the output starts with the first used item's rendering and ends with the last one's |
| `Notices.SavedAt` | tools.py:141 | the reply is `图片保存在`, the path and `下` |
| `Notices.PathOfSavedAt` | tools.py:188 | the path is recovered from the reply |
| `Draw.DrawPrompt` | tools.py:144-145 | the prompt is the translation followed by `,traditional chinese ink painting,peaceful` |
| `Draw.DrawPromptInjective` | tools.py:145 | different translations give different prompts |
| `Draw.MakePayload` | tools.py:146-157 | the request body holds that prompt, 30 steps, 640 by 1024, the fixed negative prompt and the sampler |
| `Draw.ImageFile` | tools.py:162 | the file name is `output/images/output_`, decimal digits and `.png`, and the digits read back as the image's index |
| `Draw.SavedFiles` | tools.py:160-162 | image `i` of the reply is saved as `output/images/output_{i}.png` |
| `Draw.SavedFilesDistinct` | tools.py:160-162 | no two images of one reply are saved to the same file |
| `Draw.CallApi` | tools.py:139-147 | a successful call always replies `图片保存在output/images/下`; it succeeds exactly when the translation succeeds and the image reply has `images`; a failed translation fails the call with the translation's own error, and a reply without `images` raises `KeyError` |
| `Audio.LineEnd` | tools.py:176 | the result is the first line break at or after `k`, or the end of the string |
| `Audio.LastClose` | tools.py:176 | the result is the last `>` in the range, or none when the range has no `>` |
| `Audio.CloseFor` | tools.py:176 | from a given `<`, the match ends at the last `>` that makes `<.+>` match, and there is none exactly when no `>` does |
| `Audio.SearchFrom` | tools.py:176 | the result is a match of `<.+>` starting at or after `k`; no match starts earlier and none from the same `<` ends later; none is found exactly when there is no match from `k` on |
| `Audio.AngleMatch` | tools.py:176 | the same for the whole query: leftmost start, greedy end, and none exactly when `<.+>` has no match |
| `Audio.SpeechText` | tools.py:176-178 | the speech text is absent exactly when nothing matches; otherwise it is non-empty, has no line break, and lies strictly between the `<` and `>` of the leftmost match, which runs to the last `>` that `<.+>` can reach from that `<` |
| `Audio.CallApi` | tools.py:175-190 | the call returns `None` exactly when nothing matches; it raises `KeyError` exactly when there is speech text and the service's reply has no `result`; otherwise it replies with that `result` path for the extracted text |
| `Audio.EmptyBracketsRejected` | tools.py:176 | a bare `<>` matches nothing |
| `Audio.ExampleExtraction` | tools.py:176-178 | `将这段话转成语音：<你好世界>` yields `你好世界` |
| `Audio.GreedyExtraction` | tools.py:176-178 | `<a> <b>` yields `a> <b`: the match runs to the last `>` of the line |
| `Audio.LineBreakSkipped` | tools.py:176-178 | in `<a`, a line break, then `<b>`, the first `<` has no `>` on its line, so the match is `<b>` |
| `Tools.CallApi` | tools.py:56-190 | the base tool raises `NotImplementedError`, and only it does; the search tool answers from the search context and the original query; the draw tool succeeds or fails exactly as the drawing call does, with the same error, and a success replies with the images folder; the speech tool raises `KeyError` exactly when the speech reply lacks `result` for found speech text, and otherwise returns `None` exactly when no speech text is found |
| `Tools.Run` | tools.py:59-64 | `_run(query)` is exactly `_call_api(query)` of the same tool |
| `Tools.Name` | tools.py:52-169 | a tool's name is empty exactly for the base tool |
| `Tools.NameDeterminesKind` | tools.py:52-169 | two tools with the same name are of the same kind: `搜索问答`, `绘画`, `语音` and the base tool's empty name are all different |
| `Tools.Registry` | run.py:28-30 | the example registry is the search, drawing and speech tools, in that order; none is the base tool, and the drawing tool carries the given Baidu credentials |
| `Tools.Names` | agent.py:45 | the registry's names, in registration order |
| `Tools.RegistryNamesUnambiguous` | run.py:28-30 | the three registered names are distinct and none occurs inside another |
| `Tools.ExampleSearchIntent` | agent.py:25-26 | the reply `意图类别：搜索问答` selects the search tool alone |
| `Tools.TwoIntentsReply` | agent.py:47 | in `你需要的是绘画，也可能是语音`, `绘画` first occurs before `语音`, and `搜索问答` does not occur |
| `Tools.ExampleTwoIntents` | agent.py:47-49 | that reply selects `绘画` then `语音` |

## Left out

- HTTP calls to Google search, Baidu translation, the image service and the speech service (tools.py:45, 109, 158, 186). Each is a function held in `Tools.Services`: from the request to the decoded field the code reads, or `None` where the reply lacks that field.
- Invoking the language model, `LLMChain`, `get_llm_chain` and prompt templating (agent.py:20-46, tools.py:89-101, 123-125). The model's completion is an input string, and the search tool's answer is a function of context and query.
- md5 hashing and `random.randint` (tools.py:31-34). The digest is a function parameter. The salt is a parameter, and a precondition keeps it in [32768, 65536].
- base64 and image decoding, and saving the files (tools.py:160-162). Only the file names are modelled. The exceptions these steps can raise are not modelled either: a malformed image string, or `image.save` when `output/images/` is missing, since the code never creates that folder. So `Draw.CallApi` succeeding means the translation and the `images` key were in order, not that the files were written.
- `os.path.abspath` of the audio folder (tools.py:180). It depends on the working directory, so the speech service is modelled as a function of the text alone.
- The hint printed when the audio query has no `<…>` (tools.py:190). It is output only; the `None` result is modelled.
- `cfg_scale` in the image request (tools.py:156). It is a floating-point constant with no bearing on the logic.
- `_arun` and `aplan` (tools.py:66-71, agent.py:62-65). They only raise.
- `input_keys` (agent.py:51-53). It is a constant.
- Running the chosen tool by name. The LangChain `AgentExecutor` does this, and its code is not part of this model. `Agent.Plan` and `Tools.Run` are modelled separately.
- run.py, apart from the registry it builds. The rest is credentials and wiring.
- Search.SearchResultPieces: the round trip is proved only when no rendered result contains a line break. It fails when a result holds `"\n\n"`, or ends with a line break just before a gap. `Search.SearchResultLayout` describes the output for every result list.
- Agent.ChooseToolsStable: with a name registered more than once, the lemma's own statement does not fix which registration each chosen copy came from. The full order, repeats included, is the ranking clause of `Agent.ChooseTools`.
- Translate.TranslateToEn: it has no contract of its own. It is `ReadReply` applied to the reply to `Request`, and both carry contracts.

=== FILE: agent.dfy ===
/** The intent agent: it reads which registered tool names occur in the
    language model's reply, ranks them by where they first occur, and plans
    a single tool call on the first of them. */
module Agent {
  import opened Wrappers
  import opened Strings

  /** A registered tool name found in the reply: `at` is its first
      occurrence in the reply (the sort key) and `pos` its place in the
      registry. The sort never reads `pos`; it only records the registration
      order that a stable sort falls back to on equal keys. */
  datatype Candidate = Candidate(name: string, at: nat, pos: nat)

  /** The action the agent hands to its executor. */
  datatype AgentAction = AgentAction(tool: string, toolInput: string, log: string)

  /** `a` is ranked strictly before `b`: earlier occurrence, or the same
      occurrence and registered earlier. */
  predicate Before(a: Candidate, b: Candidate) {
    a.at < b.at || (a.at == b.at && a.pos < b.pos)
  }

  /** The candidates are in strictly increasing (occurrence, registration) order. */
  predicate Ranked(cs: seq<Candidate>) {
    forall i, j :: 0 <= i < j < |cs| ==> Before(cs[i], cs[j])
  }

  /** Every candidate was registered later than `p`. */
  predicate AllAbove(cs: seq<Candidate>, p: nat) {
    forall i :: 0 <= i < |cs| ==> p < cs[i].pos
  }

  /** The candidate is the registry entry at `pos`, tagged with that name's
      first occurrence in `resp`. */
  predicate Tags(names: seq<string>, resp: string, c: Candidate) {
    c.pos < |names| && names[c.pos] == c.name && Find(resp, c.name) == Some(c.at)
  }

  /** The list comprehension `[(name, resp.index(name)) for name in
      tool_names if name in resp]`, from registry position `k` on. */
  function Matches(names: seq<string>, resp: string, k: nat): (r: seq<Candidate>)
    requires k <= |names|
    ensures |r| <= |names| - k
    ensures forall i :: 0 <= i < |r| ==> Tags(names, resp, r[i]) && k <= r[i].pos
    ensures forall i, j :: 0 <= i < j < |r| ==> r[i].pos < r[j].pos
    decreases |names| - k
  {
    if k == |names| then []
    else
      var rest := Matches(names, resp, k + 1);
      match Find(resp, names[k])
      case Some(at) => [Candidate(names[k], at, k)] + rest
      case None => rest
  }

  /** Every registered name occurring in the reply is matched. */
  lemma {:induction false} MatchesComplete(names: seq<string>, resp: string, k: nat, p: nat)
    requires k <= p < |names| && Contains(resp, names[p])
    ensures exists i :: 0 <= i < |Matches(names, resp, k)| && Matches(names, resp, k)[i].pos == p
    decreases |names| - k
  {
    var r := Matches(names, resp, k);
    if p == k {
      assert r[0].pos == p;
    } else {
      MatchesComplete(names, resp, k + 1, p);
      var rest := Matches(names, resp, k + 1);
      var i :| 0 <= i < |rest| && rest[i].pos == p;
      if Find(resp, names[k]).Some? {
        assert r[i + 1] == rest[i];
      } else {
        assert r[i] == rest[i];
      }
    }
  }

  /** Places `c` in front of the first candidate of `cs` whose key is at
      least `c.at`, that is after every candidate with a smaller key. */
  function Insert(c: Candidate, cs: seq<Candidate>): (r: seq<Candidate>)
    ensures multiset(r) == multiset(cs) + multiset{c}
  {
    if |cs| == 0 then [c]
    else if c.at <= cs[0].at then [c] + cs
    else
      assert cs == [cs[0]] + cs[1..];
      [cs[0]] + Insert(c, cs[1..])
  }

  /** Every element of a sequence is in any sequence with the same multiset. */
  lemma SameElements(a: seq<Candidate>, b: seq<Candidate>, x: Candidate)
    requires multiset(a) == multiset(b) && x in a
    ensures x in b
  {
    assert x in multiset(a);
  }

  /** Inserting a candidate registered after all of `cs` into a ranked
      sequence keeps it ranked. */
  lemma {:induction false} InsertRanked(c: Candidate, cs: seq<Candidate>)
    requires Ranked(cs) && AllAbove(cs, c.pos)
    ensures Ranked(Insert(c, cs))
  {
    if |cs| > 0 && c.at > cs[0].at {
      var tail := cs[1..];
      var rest := Insert(c, tail);
      InsertRanked(c, tail);
      forall j | 0 <= j < |rest| ensures Before(cs[0], rest[j]) {
        assert rest[j] in multiset(tail) + multiset{c};
        if rest[j] != c {
          assert rest[j] in tail;
          var k :| 0 <= k < |tail| && tail[k] == rest[j];
          assert cs[k + 1] == rest[j];
        }
      }
    }
  }

  /** `list.sort(key=lambda x: x[1])`: a stable sort on the occurrence
      index, written as an insertion sort. */
  function SortByOccurrence(cs: seq<Candidate>): (r: seq<Candidate>)
    ensures multiset(r) == multiset(cs)
  {
    if |cs| == 0 then []
    else
      assert cs == [cs[0]] + cs[1..];
      Insert(cs[0], SortByOccurrence(cs[1..]))
  }

  /** Sorting candidates listed in registration order ranks them by
      (occurrence, registration): the sort is stable. */
  lemma {:induction false} SortRanked(cs: seq<Candidate>)
    requires forall i, j :: 0 <= i < j < |cs| ==> cs[i].pos < cs[j].pos
    ensures Ranked(SortByOccurrence(cs))
  {
    if |cs| > 0 {
      var tail := cs[1..];
      var rest := SortByOccurrence(tail);
      SortRanked(tail);
      forall j | 0 <= j < |rest| ensures cs[0].pos < rest[j].pos {
        SameElements(rest, tail, rest[j]);
        var k :| 0 <= k < |tail| && tail[k] == rest[j];
        assert cs[k + 1] == rest[j];
      }
      InsertRanked(cs[0], rest);
    }
  }

  /** Each candidate is a registry entry tagged with its first occurrence. */
  predicate AllTagged(names: seq<string>, resp: string, cs: seq<Candidate>) {
    forall i :: 0 <= i < |cs| ==> Tags(names, resp, cs[i])
  }

  /** A registry position has a candidate exactly when its name occurs in
      the reply. */
  predicate Complete(names: seq<string>, resp: string, cs: seq<Candidate>) {
    forall p :: 0 <= p < |names| ==>
      (Contains(resp, names[p]) <==> exists i :: 0 <= i < |cs| && cs[i].pos == p)
  }

  /** The matched candidates in the order `choose_tools` returns them. */
  function Rank(names: seq<string>, resp: string): (r: seq<Candidate>)
    ensures |r| <= |names|
    ensures AllTagged(names, resp, r)
    ensures Ranked(r)
    ensures Complete(names, resp, r)
  {
    var found := Matches(names, resp, 0);
    var r := SortByOccurrence(found);
    assert |r| == |multiset(r)| == |multiset(found)| == |found|;
    SortRanked(found);
    SortTagged(names, resp, found, r);
    SortComplete(names, resp, found, r);
    r
  }

  /** Sorting keeps every candidate tagged. */
  lemma SortTagged(names: seq<string>, resp: string, found: seq<Candidate>, r: seq<Candidate>)
    requires AllTagged(names, resp, found) && multiset(r) == multiset(found)
    ensures AllTagged(names, resp, r)
  {
    forall i | 0 <= i < |r| ensures Tags(names, resp, r[i]) {
      SameElements(r, found, r[i]);
    }
  }

  /** The sorted matches cover exactly the registry names occurring in the reply. */
  lemma SortComplete(names: seq<string>, resp: string, found: seq<Candidate>, r: seq<Candidate>)
    requires found == Matches(names, resp, 0) && multiset(r) == multiset(found)
    requires AllTagged(names, resp, r)
    ensures Complete(names, resp, r)
  {
    forall p | 0 <= p < |names| && Contains(resp, names[p])
      ensures exists i :: 0 <= i < |r| && r[i].pos == p
    {
      MatchesComplete(names, resp, 0, p);
      var k :| 0 <= k < |found| && found[k].pos == p;
      SameElements(found, r, found[k]);
      var i :| 0 <= i < |r| && r[i] == found[k];
    }
    forall p | 0 <= p < |names| && (exists i :: 0 <= i < |r| && r[i].pos == p)
      ensures Contains(resp, names[p])
    {
      var i :| 0 <= i < |r| && r[i].pos == p;
      assert Tags(names, resp, r[i]);
    }
  }

  /** The names of the ranked candidates, in order. */
  function NamesOf(cs: seq<Candidate>): (r: seq<string>)
    ensures |r| == |cs| && forall i :: 0 <= i < |r| ==> r[i] == cs[i].name
  {
    if |cs| == 0 then [] else [cs[0].name] + NamesOf(cs[1..])
  }

  /** No name is listed twice. */
  predicate Distinct(xs: seq<string>) {
    forall i, j :: 0 <= i < j < |xs| ==> xs[i] != xs[j]
  }

  /** The names are in non-decreasing order of first occurrence in `resp`. */
  predicate ByFirstOccurrence(resp: string, r: seq<string>) {
    forall i, j :: 0 <= i < j < |r| ==>
      Contains(resp, r[i]) && Contains(resp, r[j]) && Index(resp, r[i]) <= Index(resp, r[j])
  }

  /** `IntentAgent.choose_tools`: the registered names occurring in the
      reply `resp`, ordered by first occurrence. The last clause fixes the
      result outright, repeated registrations included: it lists one entry
      per registry position whose name occurs, in (first occurrence,
      registry position) order. */
  function ChooseTools(names: seq<string>, resp: string): (r: seq<string>)
    ensures |r| <= |names|
    ensures forall i :: 0 <= i < |r| ==> r[i] in names
    ensures forall n :: n in names ==> (n in r <==> Contains(resp, n))
    ensures ByFirstOccurrence(resp, r)
    ensures Distinct(names) ==> Distinct(r)
    ensures exists cs :: r == NamesOf(cs) && AllTagged(names, resp, cs) && Ranked(cs) && Complete(names, resp, cs)
  {
    var cs := Rank(names, resp);
    var r := NamesOf(cs);
    ChosenExactly(names, resp, cs, r);
    ChosenOrdered(names, resp, cs, r);
    ChosenDistinct(names, resp, cs, r);
    r
  }

  /** A registered name is chosen exactly when it occurs in the reply. */
  lemma ChosenExactly(names: seq<string>, resp: string, cs: seq<Candidate>, r: seq<string>)
    requires AllTagged(names, resp, cs) && Complete(names, resp, cs) && r == NamesOf(cs)
    ensures forall i :: 0 <= i < |r| ==> r[i] in names
    ensures forall n :: n in names ==> (n in r <==> Contains(resp, n))
  {
  }

  /** The chosen names follow the ranking, hence their first occurrences. */
  lemma ChosenOrdered(names: seq<string>, resp: string, cs: seq<Candidate>, r: seq<string>)
    requires AllTagged(names, resp, cs) && Ranked(cs) && r == NamesOf(cs)
    ensures ByFirstOccurrence(resp, r)
  {
  }

  /** Distinct registered names give distinct chosen names. */
  lemma ChosenDistinct(names: seq<string>, resp: string, cs: seq<Candidate>, r: seq<string>)
    requires AllTagged(names, resp, cs) && Ranked(cs) && r == NamesOf(cs)
    ensures Distinct(names) ==> Distinct(r)
  {
  }

  /** `IntentAgent.plan`: act with the first chosen tool, passing the input
      through untouched. With no registered name in the reply the `[0]`
      raises, and no other tool is tried. */
  function Plan(names: seq<string>, resp: string, input: string): (r: Result<AgentAction>)
    ensures r.Failure? <==> forall n :: n in names ==> !Contains(resp, n)
    ensures r.Failure? ==> r.error == IndexError
    ensures r.Success? ==> r.value.toolInput == input && r.value.log == ""
    ensures r.Success? ==> r.value.tool in names && Contains(resp, r.value.tool)
    ensures r.Success? ==> forall n :: n in names && Contains(resp, n) ==>
              Index(resp, r.value.tool) <= Index(resp, n)
    ensures r.Success? ==> forall p :: 0 <= p < |names| && Contains(resp, names[p]) ==>
              (Index(resp, names[p]) == Index(resp, r.value.tool) ==>
                 exists q :: 0 <= q <= p && names[q] == r.value.tool)
  {
    var chosen := ChooseTools(names, resp);
    if |chosen| == 0 then
      Failure(IndexError)
    else
      var cs := Rank(names, resp);
      assert chosen[0] == cs[0].name;
      forall p | 0 <= p < |names| && Contains(resp, names[p])
        ensures cs[0].at <= Index(resp, names[p])
        ensures Index(resp, names[p]) == cs[0].at ==> cs[0].pos <= p
      {
        var i :| 0 <= i < |cs| && cs[i].pos == p;
        assert i == 0 || Before(cs[0], cs[i]);
      }
      assert names[cs[0].pos] == chosen[0];
      Success(AgentAction(chosen[0], input, ""))
  }

  /** Two names tied on their first occurrence keep their registration
      order: the sort is stable. */
  lemma ChooseToolsStable(names: seq<string>, resp: string, i: nat, j: nat)
    requires i < j
    ensures var r := ChooseTools(names, resp);
            j < |r| && Find(resp, r[i]) == Find(resp, r[j]) ==>
            exists p, q :: 0 <= p < q < |names| && names[p] == r[i] && names[q] == r[j]
  {
  }


  /** A name registered twice is chosen twice, and a tie on first
      occurrence keeps registration order even across the repeat. */
  lemma RepeatedNameKept(names: seq<string>, resp: string)
    requires names == ["a", "ab", "a"] && resp == "xab"
    ensures ChooseTools(names, resp) == ["a", "ab", "a"]
  {
    var cs := [Candidate("a", 1, 0), Candidate("ab", 1, 1), Candidate("a", 1, 2)];
    RepeatedNameRanked(names, resp);
    ChooseToolsNames(names, resp);
    RepeatedNameNames(cs);
  }

  /** The names of the three ranked candidates. */
  lemma RepeatedNameNames(cs: seq<Candidate>)
    requires cs == [Candidate("a", 1, 0), Candidate("ab", 1, 1), Candidate("a", 1, 2)]
    ensures NamesOf(cs) == ["a", "ab", "a"]
  {
  }

  /** All three registrations are ranked, in registration order. */
  lemma RepeatedNameRanked(names: seq<string>, resp: string)
    requires names == ["a", "ab", "a"] && resp == "xab"
    ensures Rank(names, resp) == [Candidate("a", 1, 0), Candidate("ab", 1, 1), Candidate("a", 1, 2)]
  {
    RepeatedNameMatches(names, resp);
    RepeatedNameSorted(Matches(names, resp, 0));
  }

  /** The chosen names are the names of the ranked candidates. */
  lemma ChooseToolsNames(names: seq<string>, resp: string)
    ensures ChooseTools(names, resp) == NamesOf(Rank(names, resp))
  {
  }

  /** The comprehension keeps all three registrations, tied at position 1. */
  lemma RepeatedNameMatches(names: seq<string>, resp: string)
    requires names == ["a", "ab", "a"] && resp == "xab"
    ensures Matches(names, resp, 0) == [Candidate("a", 1, 0), Candidate("ab", 1, 1), Candidate("a", 1, 2)]
  {
    RepeatedNameFound(resp);
    assert Matches(names, resp, 3) == [];
    assert Matches(names, resp, 2) == [Candidate("a", 1, 2)];
    assert Matches(names, resp, 1) == [Candidate("ab", 1, 1), Candidate("a", 1, 2)];
  }

  /** Sorting candidates tied on their key leaves them where they are. */
  lemma RepeatedNameSorted(cs: seq<Candidate>)
    requires cs == [Candidate("a", 1, 0), Candidate("ab", 1, 1), Candidate("a", 1, 2)]
    ensures SortByOccurrence(cs) == cs
  {
  }

  /** Where `a` and `ab` first occur in `xab`. */
  lemma RepeatedNameFound(resp: string)
    requires resp == "xab"
    ensures Find(resp, "a") == Some(1) && Find(resp, "ab") == Some(1)
  {
    assert resp[0..1][0] == 'x' && resp[0..2][0] == 'x';
    assert OccursAt(resp, "a", 1) && !OccursAt(resp, "a", 0);
    assert OccursAt(resp, "ab", 1) && !OccursAt(resp, "ab", 0);
  }

  /** With distinct names and exactly one of them in the reply, that one is
      chosen alone. */
  lemma ChooseToolsSingle(names: seq<string>, resp: string, n: string)
    requires Distinct(names) && n in names && Contains(resp, n)
    requires forall m :: m in names && m != n ==> !Contains(resp, m)
    ensures ChooseTools(names, resp) == [n]
  {
  }

  /** A sequence without repeats has as many elements as values. */
  lemma {:induction false} DistinctCount(r: seq<string>)
    requires Distinct(r)
    ensures |set x | x in r| == |r|
  {
    if |r| > 0 {
      var t := r[1..];
      DistinctCount(t);
      assert (set x | x in r) == {r[0]} + (set x | x in t);
      assert r[0] !in (set x | x in t);
    }
  }

  /** A subset is no larger than its superset. */
  lemma SubsetCount(a: set<string>, b: set<string>)
    requires a <= b
    ensures |a| <= |b|
  {
    assert b == a + (b - a);
  }

  /** Distinct names drawn from two values number at most two. */
  lemma AtMostTwo(r: seq<string>, a: string, b: string)
    requires Distinct(r) && forall i :: 0 <= i < |r| ==> r[i] == a || r[i] == b
    ensures |r| <= 2
  {
    DistinctCount(r);
    var seen := set x | x in r;
    assert seen <= {a, b};
    assert |seen| <= |{a, b}| by {
      SubsetCount(seen, {a, b});
    }
  }

  /** With distinct names and exactly two of them in the reply, both are
      chosen, the one occurring first ahead. */
  lemma ChooseToolsPair(names: seq<string>, resp: string, a: string, b: string)
    requires Distinct(names) && a in names && b in names
    requires Contains(resp, a) && Contains(resp, b) && Index(resp, a) < Index(resp, b)
    requires forall m :: m in names && m != a && m != b ==> !Contains(resp, m)
    ensures ChooseTools(names, resp) == [a, b]
  {
    var r := ChooseTools(names, resp);
    assert Distinct(r);
    assert a in r && b in r && a != b;
    forall i | 0 <= i < |r| ensures r[i] == a || r[i] == b {
      assert r[i] in names && r[i] in r;
    }
    AtMostTwo(r, a, b);
    assert |r| == 2;
    assert Index(resp, r[0]) <= Index(resp, r[1]);
    assert r[0] == a;
  }

}

=== FILE: audio.dfy ===
/** `AudioTool._call_api`: the text to speak is the span that
    `re.search(r"<.+>", query)` finds, without its brackets. */
module Audio {
  import opened Wrappers
  import opened Notices

  /** Positions of the `<` and `>` of a match. */
  datatype Span = Span(open: nat, close: nat)

  /** `s[i..j+1]` is a match of `<.+>`: a `<`, at least one character other
      than a line break, and a `>`. */
  predicate Delimits(s: string, i: nat, j: nat) {
    i + 2 <= j < |s| && s[i] == '<' && s[j] == '>' &&
    forall k :: i < k < j ==> s[k] != '\n'
  }

  /** The first line break at or after `k`, or the end of `s`. */
  function LineEnd(s: string, k: nat): (r: nat)
    requires k <= |s|
    ensures k <= r <= |s| && (r < |s| ==> s[r] == '\n')
    ensures forall m :: k <= m < r ==> s[m] != '\n'
    decreases |s| - k
  {
    if k == |s| || s[k] == '\n' then k else LineEnd(s, k + 1)
  }

  /** The last `>` in `s[lo..hi]`: where the greedy `.+` backtracks to. */
  function LastClose(s: string, lo: nat, hi: nat): (r: Option<nat>)
    requires hi <= |s|
    ensures r.Some? ==> lo <= r.value < hi && s[r.value] == '>'
    ensures r.Some? ==> forall m :: r.value < m < hi ==> s[m] != '>'
    ensures r.None? ==> forall m :: lo <= m < hi ==> s[m] != '>'
    decreases hi
  {
    if hi <= lo then None
    else if s[hi - 1] == '>' then Some(hi - 1)
    else LastClose(s, lo, hi - 1)
  }

  /** Where a match starting at the `<` at `i` ends, if one does: the last
      `>` on the same line at least two places further on. */
  function CloseFor(s: string, i: nat): (r: Option<nat>)
    requires i < |s| && s[i] == '<'
    ensures r.Some? ==> Delimits(s, i, r.value)
    ensures r.Some? ==> forall j: nat :: Delimits(s, i, j) ==> j <= r.value
    ensures r.None? ==> forall j: nat :: !Delimits(s, i, j)
  {
    var end := LineEnd(s, i + 1);
    var r := LastClose(s, i + 2, end);
    forall j: nat | Delimits(s, i, j) ensures j < end {
      assert end < |s| ==> s[end] == '\n';
    }
    r
  }

  /** The leftmost match starting at or after position `k`. */
  function SearchFrom(s: string, k: nat): (r: Option<Span>)
    requires k <= |s|
    ensures r.Some? ==> k <= r.value.open && Delimits(s, r.value.open, r.value.close)
    ensures r.Some? ==> forall i: nat, j: nat :: k <= i && Delimits(s, i, j) ==>
              r.value.open < i || (r.value.open == i && j <= r.value.close)
    ensures r.None? ==> forall i: nat, j: nat :: k <= i ==> !Delimits(s, i, j)
    decreases |s| - k
  {
    if k == |s| then None
    else if s[k] == '<' && CloseFor(s, k).Some? then Some(Span(k, CloseFor(s, k).value))
    else SearchFrom(s, k + 1)
  }

  /** `re.search(r"<.+>", s)`: the leftmost match, made as long as its line allows. */
  function AngleMatch(s: string): (r: Option<Span>)
    ensures r.None? <==> forall i: nat, j: nat :: !Delimits(s, i, j)
    ensures r.Some? ==> Delimits(s, r.value.open, r.value.close)
    ensures r.Some? ==> forall i: nat, j: nat :: Delimits(s, i, j) ==>
              r.value.open < i || (r.value.open == i && j <= r.value.close)
  {
    SearchFrom(s, 0)
  }

  /** `res.group()[1:-1]`: the text between the matched brackets, or `None`
      when nothing matches. */
  function SpeechText(query: string): (r: Option<string>)
    ensures r.None? <==> forall i: nat, j: nat :: !Delimits(query, i, j)
    ensures r.Some? ==> |r.value| >= 1 && forall k :: 0 <= k < |r.value| ==> r.value[k] != '\n'
    ensures r.Some? ==>
              exists i: nat, j: nat ::
                Delimits(query, i, j) && r.value == query[i + 1..j] &&
                forall i2: nat, j2: nat :: Delimits(query, i2, j2) ==> i < i2 || (i == i2 && j2 <= j)
  {
    match AngleMatch(query)
    case None => None
    case Some(m) => Some(query[m.open + 1..m.close])
  }

  /** `AudioTool._call_api`: asks the speech service (`speak`, from the text
      to the `result` field of its reply, `None` when the reply lacks it) and
      reports where the audio went. Without a match `_call_api` prints a hint
      and returns `None`; a reply without `result` raises `KeyError`. */
  function CallApi(query: string, speak: string -> Option<string>): (r: Result<Option<string>>)
    ensures r.Failure? <==> SpeechText(query).Some? && speak(SpeechText(query).value).None?
    ensures r.Failure? ==> r.error == KeyError
    ensures r.Success? ==> (r.value.None? <==> SpeechText(query).None?)
    ensures r.Success? && r.value.Some? ==>
              r.value.value == SavedAt(speak(SpeechText(query).value).value)
  {
    match SpeechText(query)
    case None => Success(None)
    case Some(text) =>
      match speak(text)
      case None => Failure(KeyError)
      case Some(path) => Success(Some(SavedAt(path)))
  }

  /** A bare `<>` holds nothing to speak. */
  lemma EmptyBracketsRejected()
    ensures SpeechText("<>") == None
  {
  }

  /** A speech request: the bracketed text is extracted. */
  lemma ExampleExtraction()
    ensures SpeechText("将这段话转成语音：<你好世界>") == Some("你好世界")
  {
    var q := "将这段话转成语音：<你好世界>";
    assert LineEnd(q, 10) == 15;
    assert LastClose(q, 11, 15) == Some(14);
    assert SearchFrom(q, 9) == Some(Span(9, 14));
    assert SearchFrom(q, 5) == Some(Span(9, 14));
    assert SearchFrom(q, 0) == Some(Span(9, 14));
    assert q[10..14] == "你好世界";
  }

  /** The match is greedy: it runs to the last `>` of the line. */
  lemma GreedyExtraction()
    ensures SpeechText("<a> <b>") == Some("a> <b")
  {
    var q := "<a> <b>";
    assert LineEnd(q, 1) == 7;
    assert LastClose(q, 2, 7) == Some(6);
    assert SearchFrom(q, 0) == Some(Span(0, 6));
    assert q[1..6] == "a> <b";
  }

  /** A bracket pair split by a line break does not match, but a later one does. */
  lemma LineBreakSkipped()
    ensures SpeechText("<a\n<b>") == Some("b")
  {
    var q := "<a\n<b>";
    assert LineEnd(q, 1) == 2;
    assert CloseFor(q, 0) == None;
    assert LineEnd(q, 4) == 6;
    assert LastClose(q, 5, 6) == Some(5);
    assert SearchFrom(q, 3) == Some(Span(3, 5));
    assert SearchFrom(q, 0) == Some(Span(3, 5));
    assert q[4..5] == "b";
  }
}

=== FILE: draw.dfy ===
/** `DrawTool`: translate the request, add a fixed style, ask the image
    service, save the images and report the folder. */
module Draw {
  import opened Wrappers
  import opened Strings
  import opened Notices
  import Translate

  /** Appended to the translated request. */
  const Style: string := ",traditional chinese ink painting,peaceful"

  /** What the image should avoid. */
  const NegativePrompt: string := "(worst quality:2), (low quality:2), (normal quality:2), lowres, normal quality, skin spots, acnes, skin blemishes, age spot, glans, (watermark:2)"

  /** The folder the images are saved in. */
  const ImageDir: string := "output/images/"

  /** The JSON body posted to the image service (`cfg_scale` is not modelled). */
  datatype Payload = Payload(prompt: string, steps: nat, width: nat, height: nat,
                             negativePrompt: string, samplerIndex: string)

  /** `draw_prompt += ",traditional chinese ink painting,peaceful"`. */
  function DrawPrompt(translation: string): (r: string)
    ensures |r| == |translation| + |Style|
    ensures r[..|translation|] == translation && r[|translation|..] == Style
  {
    translation + Style
  }

  /** Different translations give different prompts. */
  lemma DrawPromptInjective(a: string, b: string)
    requires DrawPrompt(a) == DrawPrompt(b)
    ensures a == b
  {
  }

  /** The request body for a translated prompt. */
  function MakePayload(translation: string): (r: Payload)
    ensures r.prompt == DrawPrompt(translation)
    ensures r.steps == 30 && r.width == 640 && r.height == 1024
    ensures r.negativePrompt == NegativePrompt && r.samplerIndex == "DPM++ SDE Karras"
  {
    Payload(DrawPrompt(translation), 30, 640, 1024, NegativePrompt, "DPM++ SDE Karras")
  }

  /** The folder and file-name stem every image file starts with. */
  const Stem: string := ImageDir + "output_"

  /** `img_path + f"output_{i}.png"`: where the `i`-th image is saved. The
      index is read back from the digits between the stem and `.png`. */
  function ImageFile(i: nat): (r: string)
    ensures |r| == |Stem| + |Decimal(i)| + 4
    ensures r[..|Stem|] == Stem && r[|r| - 4..] == ".png"
    ensures AllDigits(r[|Stem|..|r| - 4]) && ParseDecimal(r[|Stem|..|r| - 4]) == i
  {
    var r := Stem + Decimal(i) + ".png";
    assert r[|Stem|..|r| - 4] == Decimal(i);
    ParseDecimalOfDecimal(i);
    r
  }

  /** The files one reply with `n` images is saved to. */
  function SavedFiles(n: nat): (r: seq<string>)
    ensures |r| == n && forall i :: 0 <= i < n ==> r[i] == ImageFile(i)
  {
    if n == 0 then [] else SavedFiles(n - 1) + [ImageFile(n - 1)]
  }

  /** Different images go to different files, so none overwrites another. */
  lemma SavedFilesDistinct(n: nat, i: nat, j: nat)
    requires i < j < n
    ensures SavedFiles(n)[i] != SavedFiles(n)[j]
  {
  }

  /** `DrawTool._call_api`: the translation (which may raise), then the
      image service's `images` list (`None` when the key is missing). */
  function CallApi(query: string, appid: string, appkey: string, salt: nat,
                   md5: string -> string,
                   translator: Translate.Params -> Option<seq<Translate.Entry>>,
                   painter: Payload -> Option<seq<string>>): (r: Result<string>)
    requires Translate.SaltMin <= salt <= Translate.SaltMax
    ensures r.Success? ==> r.value == SavedAt(ImageDir)
    ensures r.Failure? ==> r.error == IndexError || r.error == KeyError
    ensures var tr := Translate.TranslateToEn(query, appid, appkey, salt, md5, translator);
            (tr.Failure? ==> r == Failure(tr.error)) &&
            (tr.Success? && painter(MakePayload(tr.value)).None? ==> r == Failure(KeyError))
    ensures r.Success? <==>
              Translate.TranslateToEn(query, appid, appkey, salt, md5, translator).Success? &&
              painter(MakePayload(Translate.TranslateToEn(query, appid, appkey, salt, md5, translator).value)).Some?
  {
    var translation :- Translate.TranslateToEn(query, appid, appkey, salt, md5, translator);
    match painter(MakePayload(translation))
    case None => Failure(KeyError)
    case Some(_) => Success(SavedAt(ImageDir))
  }
}

=== FILE: notices.dfy ===
/** The reply text the drawing and speech tools return. */
module Notices {

  /** Text before the path. */
  const Lead: string := "图片保存在"

  /** Text after the path. */
  const Tail: string := "下"

  /** `f"图片保存在{path}下"`. */
  function SavedAt(path: string): (r: string)
    ensures |r| == |Lead| + |path| + |Tail|
    ensures r[..|Lead|] == Lead && r[|r| - |Tail|..] == Tail
  {
    Lead + path + Tail
  }

  /** The path is read back from the reply between the fixed lead and tail. */
  function PathOf(reply: string): string
  {
    if |reply| >= |Lead| + |Tail| then reply[|Lead|..|reply| - |Tail|] else reply
  }

  /** Reading the path back from a reply gives the path it was written with. */
  lemma PathOfSavedAt(path: string)
    ensures PathOf(SavedAt(path)) == path
  {
  }
}

=== FILE: search.dfy ===
/** `SearchTool.get_search_result`: the context handed to the
    question-answering prompt, built from the search service's reply. */
module Search {
  import opened Wrappers
  import opened Strings

  /** `SearchTool.top_k`: at most this many results are used. */
  const TopK: nat := 5

  /** Returned when the reply has no results. */
  const NoResult: string := "No Search Result was found"

  /** The separator between rendered results. */
  const Gap: string := "\n\n"

  /** The full stop written after a title. */
  const Stop: char := '。'

  /** One element of the reply's `items` list; either key may be missing. */
  datatype Item = Item(title: Option<string>, snippet: Option<string>)

  /** `results.get("items", [])[:top_k]`: the results actually used. */
  function Used(items: Option<seq<Item>>): (r: seq<Item>)
    ensures |r| <= TopK && |r| <= |items.GetOr([])|
    ensures r == items.GetOr([])[..|r|]
    ensures |r| == TopK || r == items.GetOr([])
  {
    var all := items.GetOr([]);
    if |all| <= TopK then all else all[..TopK]
  }

  /** One result as text: the title and a full stop if there is a title,
      then the snippet if there is one. */
  function Render(item: Item): (r: string)
    ensures |r| == (if item.title.Some? then |item.title.value| + 1 else 0)
                 + (if item.snippet.Some? then |item.snippet.value| else 0)
    ensures item.title.Some? ==> r[..|item.title.value| + 1] == item.title.value + [Stop]
    ensures item.snippet.Some? ==> r[|r| - |item.snippet.value|..] == item.snippet.value
  {
    var head := if item.title.Some? then item.title.value + [Stop] else "";
    var tail := if item.snippet.Some? then item.snippet.value else "";
    head + tail
  }

  /** The rendering of each result, in order. */
  function RenderAll(items: seq<Item>): (r: seq<string>)
    ensures |r| == |items| && forall k :: 0 <= k < |r| ==> r[k] == Render(items[k])
  {
    if |items| == 0 then [] else [Render(items[0])] + RenderAll(items[1..])
  }

  /** `SearchTool.get_search_result` applied to the decoded reply; `None`
      stands for a reply without an `items` key. */
  function SearchResult(items: Option<seq<Item>>): (r: string)
    ensures (items.None? || items == Some([])) ==> r == NoResult
  {
    var used := Used(items);
    if |used| == 0 then NoResult else Join(RenderAll(used), Gap)
  }

  /** No renderable line breaks: then the gaps are the only ones. */
  predicate Plain(used: seq<Item>) {
    forall k :: 0 <= k < |used| ==> Free(Render(used[k]), '\n')
  }

  /** With results, cutting the output at its gaps gives back the rendered
      results, in order, one piece per used result, so there is one gap
      fewer than results. */
  lemma SearchResultPieces(items: Option<seq<Item>>)
    requires |Used(items)| > 0 && Plain(Used(items))
    ensures Split(SearchResult(items), Gap) == RenderAll(Used(items))
    ensures |Split(SearchResult(items), Gap)| == |Used(items)| <= TopK
  {
    var parts := RenderAll(Used(items));
    forall k | 0 <= k < |parts| ensures Free(parts[k], Gap[0]) {
      assert parts[k] == Render(Used(items)[k]);
    }
    SplitJoin(parts, Gap);
  }

  /** Whatever the results hold, line breaks included, the output lays the
      rendered results end to end with `"\n\n"` between each two. */
  lemma SearchResultLayout(items: Option<seq<Item>>)
    requires |Used(items)| > 0
    ensures LaidOut(SearchResult(items), RenderAll(Used(items)), Gap)
  {
    JoinLayout(RenderAll(Used(items)), Gap);
  }

  /** Only the first `TopK` results matter. */
  lemma OnlyTopKMatter(front: seq<Item>, back: seq<Item>)
    requires |front| == TopK
    ensures SearchResult(Some(front + back)) == SearchResult(Some(front))
  {
  }

  /** The output starts with the first result's rendering and ends with
      the last used one's. */
  lemma {:induction false} SearchResultEnds(items: Option<seq<Item>>)
    requires |Used(items)| > 0
    ensures var out := SearchResult(items);
            var used := Used(items);
            var first := Render(used[0]);
            var last := Render(used[|used| - 1]);
            |first| <= |out| && out[..|first|] == first &&
            |last| <= |out| && out[|out| - |last|..] == last
  {
    JoinEnds(RenderAll(Used(items)), Gap);
  }
}

=== FILE: strings.dfy ===
/** The Python string operations the core relies on: `pat in s`,
    `s.index(pat)`, `sep.join(parts)` and `str(n)` for a natural number.
    `find` and `split` are not called by the core: `Find` is the search
    behind `in` and `index`, and `Split` serves only to state that a join
    can be undone. */
module Strings {
  import opened Wrappers

  /** `pat` occurs in `s` starting at position `i`. */
  predicate OccursAt(s: string, pat: string, i: nat) {
    i + |pat| <= |s| && s[i..i + |pat|] == pat
  }

  /** Python's `pat in s`. The empty string occurs in every string. */
  predicate Contains(s: string, pat: string) {
    exists i: nat | i <= |s| :: OccursAt(s, pat, i)
  }

  /** The first occurrence of `pat` in `s` at or after position `k`. */
  function FindFrom(s: string, pat: string, k: nat): (r: Option<nat>)
    ensures r.Some? ==> k <= r.value && OccursAt(s, pat, r.value)
    ensures r.Some? ==> forall i: nat :: k <= i < r.value ==> !OccursAt(s, pat, i)
    ensures r.None? ==> forall i: nat :: k <= i ==> !OccursAt(s, pat, i)
    decreases |s| - k
  {
    if k + |pat| > |s| then None
    else if s[k..k + |pat|] == pat then Some(k)
    else FindFrom(s, pat, k + 1)
  }

  /** The first occurrence of `pat` in `s` (what `s.find(pat)` gives, with
      `None` for -1): the search behind `in` and `index`. */
  function Find(s: string, pat: string): (r: Option<nat>)
    ensures r.Some? <==> Contains(s, pat)
    ensures r.Some? ==> OccursAt(s, pat, r.value)
    ensures r.Some? ==> forall i: nat :: i < r.value ==> !OccursAt(s, pat, i)
  {
    FindFrom(s, pat, 0)
  }

  /** Python's `s.index(pat)`, which raises unless `pat in s`. */
  function Index(s: string, pat: string): (r: nat)
    requires Contains(s, pat)
    ensures OccursAt(s, pat, r)
    ensures forall i: nat :: OccursAt(s, pat, i) ==> r <= i
  {
    Find(s, pat).value
  }

  /** Python's `sep.join(parts)`. */
  function Join(parts: seq<string>, sep: string): string
  {
    if |parts| == 0 then ""
    else if |parts| == 1 then parts[0]
    else parts[0] + sep + Join(parts[1..], sep)
  }

  /** Where part `k` begins in `Join(parts, sep)`: the widths of the parts
      before it, each followed by a separator. */
  function Start(parts: seq<string>, sep: string, k: nat): nat
    requires k <= |parts|
  {
    if k == 0 then 0 else Start(parts, sep, k - 1) + |parts[k - 1]| + |sep|
  }

  /** Dropping the first part moves every later start back by its width. */
  lemma {:induction false} StartShift(parts: seq<string>, sep: string, k: nat)
    requires 1 <= k <= |parts|
    ensures Start(parts, sep, k) == |parts[0]| + |sep| + Start(parts[1..], sep, k - 1)
    decreases k
  {
    if k > 1 {
      StartShift(parts, sep, k - 1);
      assert parts[1..][k - 2] == parts[k - 1];
    }
  }

  /** An occurrence in `b` is one in `a + b`, `|a|` places further on. */
  lemma OccursShift(a: string, b: string, pat: string, i: nat)
    requires OccursAt(b, pat, i)
    ensures OccursAt(a + b, pat, |a| + i)
  {
    assert (a + b)[|a| + i..|a| + i + |pat|] == b[i..i + |pat|];
  }

  /** A join of several parts is the first part, a separator and the join
      of the rest. */
  lemma JoinCons(parts: seq<string>, sep: string)
    requires |parts| > 1
    ensures Join(parts, sep) == (parts[0] + sep) + Join(parts[1..], sep)
  {
  }

  /** The length of a join: every part, and a separator between each two. */
  lemma {:induction false} JoinLength(parts: seq<string>, sep: string)
    requires |parts| > 0
    ensures |Join(parts, sep)| == Start(parts, sep, |parts| - 1) + |parts[|parts| - 1]|
    decreases |parts|
  {
    if |parts| > 1 {
      JoinCons(parts, sep);
      JoinLength(parts[1..], sep);
      StartShift(parts, sep, |parts| - 1);
    }
  }

  /** Part `k` of a join sits at its start. */
  lemma {:induction false} JoinPartAt(parts: seq<string>, sep: string, k: nat)
    requires k < |parts|
    ensures OccursAt(Join(parts, sep), parts[k], Start(parts, sep, k))
    decreases |parts|
  {
    var out := Join(parts, sep);
    if k == 0 {
      if |parts| > 1 {
        JoinCons(parts, sep);
      }
      assert out[0..|parts[0]|] == parts[0];
    } else {
      var tail := parts[1..];
      JoinCons(parts, sep);
      JoinPartAt(tail, sep, k - 1);
      StartShift(parts, sep, k);
      OccursShift(parts[0] + sep, Join(tail, sep), tail[k - 1], Start(tail, sep, k - 1));
    }
  }

  /** A separator follows part `k` of a join unless it is the last. */
  lemma {:induction false} JoinSepAt(parts: seq<string>, sep: string, k: nat)
    requires k + 1 < |parts|
    ensures OccursAt(Join(parts, sep), sep, Start(parts, sep, k) + |parts[k]|)
    decreases |parts|
  {
    var out := Join(parts, sep);
    var tail := parts[1..];
    JoinCons(parts, sep);
    if k == 0 {
      assert out[|parts[0]|..|parts[0]| + |sep|] == sep;
    } else {
      JoinSepAt(tail, sep, k - 1);
      StartShift(parts, sep, k);
      OccursShift(parts[0] + sep, Join(tail, sep), sep, Start(tail, sep, k - 1) + |tail[k - 1]|);
    }
  }

  /** `out` is `parts` laid end to end with `sep` between each two: each
      part sits at its start, a separator follows every part but the last,
      and nothing else is in the string. */
  predicate LaidOut(out: string, parts: seq<string>, sep: string)
    requires |parts| > 0
  {
    |out| == Start(parts, sep, |parts| - 1) + |parts[|parts| - 1]| &&
    (forall k :: 0 <= k < |parts| ==> OccursAt(out, parts[k], Start(parts, sep, k))) &&
    (forall k :: 0 <= k < |parts| - 1 ==> OccursAt(out, sep, Start(parts, sep, k) + |parts[k]|))
  }

  /** `sep.join(parts)` lays the parts out with `sep` between them. */
  lemma JoinLayout(parts: seq<string>, sep: string)
    requires |parts| > 0
    ensures LaidOut(Join(parts, sep), parts, sep)
  {
    JoinLength(parts, sep);
    forall k | 0 <= k < |parts| ensures OccursAt(Join(parts, sep), parts[k], Start(parts, sep, k)) {
      JoinPartAt(parts, sep, k);
    }
    forall k | 0 <= k < |parts| - 1 ensures OccursAt(Join(parts, sep), sep, Start(parts, sep, k) + |parts[k]|) {
      JoinSepAt(parts, sep, k);
    }
  }

  /** A join starts with its first part and ends with its last. */
  lemma {:induction false} JoinEnds(parts: seq<string>, sep: string)
    requires |parts| > 0
    ensures var out := Join(parts, sep);
            |parts[0]| <= |out| && out[..|parts[0]|] == parts[0] &&
            |parts[|parts| - 1]| <= |out| && out[|out| - |parts[|parts| - 1]|..] == parts[|parts| - 1]
  {
    if |parts| > 1 {
      JoinEnds(parts[1..], sep);
      var out := Join(parts, sep);
      assert out == parts[0] + sep + Join(parts[1..], sep);
      assert parts[1..][|parts[1..]| - 1] == parts[|parts| - 1];
    }
  }

  /** Python's `s.split(sep)` for a non-empty separator: cut at each
      occurrence, scanning left to right without overlap. */
  function Split(s: string, sep: string): (r: seq<string>)
    requires |sep| > 0
    ensures |r| >= 1
    decreases |s|
  {
    match Find(s, sep)
    case None => [s]
    case Some(i) => [s[..i]] + Split(s[i + |sep|..], sep)
  }

  /** Splitting then joining on the same separator gives back the string. */
  lemma {:induction false} JoinSplit(s: string, sep: string)
    requires |sep| > 0
    ensures Join(Split(s, sep), sep) == s
    decreases |s|
  {
    match Find(s, sep)
    case None =>
    case Some(i) =>
      var rest := s[i + |sep|..];
      var tail := Split(rest, sep);
      JoinSplit(rest, sep);
      assert Split(s, sep) == [s[..i]] + tail;
      assert ([s[..i]] + tail)[1..] == tail;
      assert Join([s[..i]] + tail, sep) == s[..i] + sep + Join(tail, sep);
      assert s[i..i + |sep|] == sep;
      assert s == s[..i] + sep + rest;
  }

  /** `c` does not occur in `s`. */
  predicate Free(s: string, c: char) {
    forall k :: 0 <= k < |s| ==> s[k] != c
  }

  /** A pattern whose first character `s` lacks does not occur in `s`. */
  lemma AbsentFirstChar(s: string, pat: string)
    requires |pat| > 0 && Free(s, pat[0])
    ensures !Contains(s, pat)
  {
  }

  /** A separator cannot be found before its first character can. */
  lemma FindAfterFreePrefix(a: string, sep: string, b: string)
    requires |sep| > 0 && Free(a, sep[0])
    ensures Find(a + sep + b, sep) == Some(|a|)
  {
    var s := a + sep + b;
    assert OccursAt(s, sep, |a|) by {
      assert s[|a|..|a| + |sep|] == sep;
    }
    forall i: nat | i < |a| ensures !OccursAt(s, sep, i) {
      assert s[i] == a[i] != sep[0];
      if i + |sep| <= |s| {
        assert s[i..i + |sep|][0] == s[i];
      }
    }
  }

  /** Joining then splitting recovers the parts when no part holds the
      separator's first character. */
  lemma {:induction false} SplitJoin(parts: seq<string>, sep: string)
    requires |parts| >= 1 && |sep| > 0
    requires forall k :: 0 <= k < |parts| ==> Free(parts[k], sep[0])
    ensures Split(Join(parts, sep), sep) == parts
    decreases |parts|
  {
    if |parts| == 1 {
      forall i: nat | i + |sep| <= |parts[0]| ensures !OccursAt(parts[0], sep, i) {
        assert parts[0][i..i + |sep|][0] == parts[0][i] != sep[0];
      }
    } else {
      var tail := Join(parts[1..], sep);
      SplitJoin(parts[1..], sep);
      FindAfterFreePrefix(parts[0], sep, tail);
      var s := parts[0] + sep + tail;
      assert s[..|parts[0]|] == parts[0];
      assert s[|parts[0]| + |sep|..] == tail;
    }
  }

  /** The decimal digit character for `d`. */
  function DigitChar(d: nat): (c: char)
    requires d < 10
    ensures '0' <= c <= '9'
  {
    ['0', '1', '2', '3', '4', '5', '6', '7', '8', '9'][d]
  }

  /** The value of a decimal digit character. */
  function DigitValue(c: char): (d: nat)
    requires '0' <= c <= '9'
    ensures d < 10 && DigitChar(d) == c
  {
    if c == '0' then 0 else if c == '1' then 1 else if c == '2' then 2
    else if c == '3' then 3 else if c == '4' then 4 else if c == '5' then 5
    else if c == '6' then 6 else if c == '7' then 7 else if c == '8' then 8
    else 9
  }

  /** Every character of `s` is a decimal digit. */
  predicate AllDigits(s: string) {
    forall k :: 0 <= k < |s| ==> '0' <= s[k] <= '9'
  }

  /** Python's `str(n)` for a natural number: decimal, no leading zeros. */
  function Decimal(n: nat): (r: string)
    ensures |r| >= 1 && AllDigits(r)
  {
    if n < 10 then [DigitChar(n)] else Decimal(n / 10) + [DigitChar(n % 10)]
  }

  /** Reads a string of decimal digits back as a number. */
  function ParseDecimal(s: string): nat
    requires AllDigits(s)
  {
    if |s| == 0 then 0
    else 10 * ParseDecimal(s[..|s| - 1]) + DigitValue(s[|s| - 1])
  }

  /** `str(n)` is read back as `n`. */
  lemma {:induction false} ParseDecimalOfDecimal(n: nat)
    ensures ParseDecimal(Decimal(n)) == n
  {
    var s := Decimal(n);
    if n >= 10 {
      ParseDecimalOfDecimal(n / 10);
      assert s[..|s| - 1] == Decimal(n / 10);
    }
  }

  /** `str` is injective on natural numbers. */
  lemma DecimalInjective(m: nat, n: nat)
    requires Decimal(m) == Decimal(n)
    ensures m == n
  {
    ParseDecimalOfDecimal(m);
    ParseDecimalOfDecimal(n);
  }

  /** `str(n)` has one digit more than `str(n // 10)` once `n` reaches 10. */
  lemma DecimalStep(n: nat)
    requires n >= 10
    ensures |Decimal(n)| == |Decimal(n / 10)| + 1
  {
  }

  /** The number of digits `str(n)` has: five exactly for 10000 <= n < 100000. */
  lemma {:induction false} DecimalFiveDigits(n: nat)
    requires 10000 <= n < 100000
    ensures |Decimal(n)| == 5
  {
    var n1 := n / 10;
    var n2 := n1 / 10;
    var n3 := n2 / 10;
    var n4 := n3 / 10;
    assert 1000 <= n1 < 10000 && 100 <= n2 < 1000 && 10 <= n3 < 100 && 1 <= n4 < 10;
    DecimalStep(n);
    DecimalStep(n1);
    DecimalStep(n2);
    DecimalStep(n3);
  }
}

=== FILE: tools.dfy ===
/** The tools the agent can pick, each answering `_run(query)` by its own
    `_call_api(query)`, and the registry the example program builds. */
module Tools {
  import opened Wrappers
  import opened Notices
  import Search
  import Translate
  import Draw
  import Audio
  import Agent
  import Strings

  /** The tool classes. `BaseTool` is `APITool` itself. */
  datatype Tool =
    | BaseTool
    | SearchTool
    | DrawTool(appid: string, appkey: string)
    | AudioTool

  /** The outside services, as functions from the request to the field of
      the decoded reply that the code reads (`None` when the reply lacks it). */
  datatype Services = Services(
    search: string -> Option<seq<Search.Item>>,   // the search service's `items` for a query
    answer: (string, string) -> string,           // the language model's answer for (context, query)
    md5: string -> string,                        // md5 hex digest
    translator: Translate.Params -> Option<seq<Translate.Entry>>,  // `trans_result` of the reply
    painter: Draw.Payload -> Option<seq<string>>, // `images` of the image service's reply
    speaker: string -> Option<string>)            // `result` of the speech service's reply

  /** The name the agent matches in the language model's reply. */
  function Name(t: Tool): (r: string)
    ensures r == "" <==> t.BaseTool?
  {
    match t
    case BaseTool => ""
    case SearchTool => "搜索问答"
    case DrawTool(_, _) => "绘画"
    case AudioTool => "语音"
  }

  /** Tools of different kinds have different names, so a name picks out
      one kind of tool. */
  lemma NameDeterminesKind(t: Tool, u: Tool)
    requires Name(t) == Name(u)
    ensures t.BaseTool? == u.BaseTool? && t.SearchTool? == u.SearchTool?
    ensures t.DrawTool? == u.DrawTool? && t.AudioTool? == u.AudioTool?
  {
    assert "搜索问答"[0] != "绘画"[0] && "搜索问答"[0] != "语音"[0] && "绘画"[0] != "语音"[0];
  }

  /** `_call_api(query)` of each tool. `salt` is the value the translation
      step draws at random. `Success(None)` is the speech tool's `None`. */
  function CallApi(t: Tool, query: string, sv: Services, salt: nat): (r: Result<Option<string>>)
    requires Translate.SaltMin <= salt <= Translate.SaltMax
    ensures t.BaseTool? ==> r == Failure(NotImplemented)
    ensures t.SearchTool? ==> r == Success(Some(sv.answer(Search.SearchResult(sv.search(query)), query)))
    ensures t.DrawTool? ==> (r.Success? ==> r.value == Some(SavedAt(Draw.ImageDir)))
    ensures t.DrawTool? ==>
              var d := Draw.CallApi(query, t.appid, t.appkey, salt, sv.md5, sv.translator, sv.painter);
              (r.Success? <==> d.Success?) && (r.Failure? ==> r.error == d.error)
    ensures t.AudioTool? ==> (r.Failure? <==> Audio.SpeechText(query).Some? &&
                                              sv.speaker(Audio.SpeechText(query).value).None?)
    ensures t.AudioTool? && r.Success? ==> (r.value.None? <==> Audio.SpeechText(query).None?)
    ensures t.AudioTool? && r.Success? && r.value.Some? ==>
              r.value.value == SavedAt(sv.speaker(Audio.SpeechText(query).value).value)
    ensures r.Failure? ==> (r.error == NotImplemented <==> t.BaseTool?)
  {
    match t
    case BaseTool => Failure(NotImplemented)
    case SearchTool =>
      var context := Search.SearchResult(sv.search(query));
      Success(Some(sv.answer(context, query)))
    case DrawTool(appid, appkey) =>
      var reply :- Draw.CallApi(query, appid, appkey, salt, sv.md5, sv.translator, sv.painter);
      Success(Some(reply))
    case AudioTool => Audio.CallApi(query, sv.speaker)
  }

  /** `APITool._run`: the tool's own `_call_api` on the unchanged query. */
  function Run(t: Tool, query: string, sv: Services, salt: nat): (r: Result<Option<string>>)
    requires Translate.SaltMin <= salt <= Translate.SaltMax
    ensures r == CallApi(t, query, sv, salt)
  {
    CallApi(t, query, sv, salt)
  }

  /** The tool list of the example program, with its Baidu credentials. */
  function Registry(appid: string, appkey: string): (r: seq<Tool>)
    ensures |r| == 3 && r[0].SearchTool? && r[1].DrawTool? && r[2].AudioTool?
    ensures forall i :: 0 <= i < |r| ==> !r[i].BaseTool?
    ensures forall i :: 0 <= i < |r| && r[i].DrawTool? ==> r[i].appid == appid && r[i].appkey == appkey
  {
    [SearchTool, DrawTool(appid, appkey), AudioTool]
  }

  /** `[tool.name for tool in self.tools]`. */
  function Names(tools: seq<Tool>): (r: seq<string>)
    ensures |r| == |tools| && forall i :: 0 <= i < |r| ==> r[i] == Name(tools[i])
  {
    if |tools| == 0 then [] else [Name(tools[0])] + Names(tools[1..])
  }

  /** The example reply naming the search tool selects it alone. */
  lemma ExampleSearchIntent(appid: string, appkey: string)
    ensures Agent.ChooseTools(Names(Registry(appid, appkey)), "意图类别：搜索问答") == ["搜索问答"]
  {
    var names := Names(Registry(appid, appkey));
    var resp := "意图类别：搜索问答";
    assert names == ["搜索问答", "绘画", "语音"];
    assert Strings.OccursAt(resp, "搜索问答", 5);
    forall k | 0 <= k < |resp| ensures resp[k] != '绘' && resp[k] != '语' {
      assert k == 0 || k == 1 || k == 2 || k == 3 || k == 4 || k == 5 || k == 6 || k == 7 || k == 8;
    }
    Strings.AbsentFirstChar(resp, "绘画");
    Strings.AbsentFirstChar(resp, "语音");
    Agent.ChooseToolsSingle(names, resp, "搜索问答");
  }

  /** The registered names are distinct and none occurs inside another, so
      a reply naming one tool cannot also select a different one. */
  lemma RegistryNamesUnambiguous(appid: string, appkey: string)
    ensures Agent.Distinct(Names(Registry(appid, appkey)))
    ensures forall a, b :: a in Names(Registry(appid, appkey)) && b in Names(Registry(appid, appkey)) && a != b ==>
              !Strings.Contains(a, b)
  {
    var names := Names(Registry(appid, appkey));
    assert names == ["搜索问答", "绘画", "语音"];
    Strings.AbsentFirstChar("搜索问答", "绘画");
    Strings.AbsentFirstChar("搜索问答", "语音");
    Strings.AbsentFirstChar("绘画", "搜索问答");
    Strings.AbsentFirstChar("绘画", "语音");
    Strings.AbsentFirstChar("语音", "搜索问答");
    Strings.AbsentFirstChar("语音", "绘画");
  }

  /** Where the tool names occur in the two-intent example reply. */
  lemma TwoIntentsReply(resp: string)
    requires resp == "你需要的是绘画，也可能是语音"
    ensures !Strings.Contains(resp, "搜索问答")
    ensures Strings.Contains(resp, "绘画") && Strings.Contains(resp, "语音")
    ensures Strings.Index(resp, "绘画") < Strings.Index(resp, "语音")
  {
    forall k | 0 <= k < |resp| ensures resp[k] != '搜' && (resp[k] == '语' ==> k == 12) {
      assert k == 0 || k == 1 || k == 2 || k == 3 || k == 4 || k == 5 || k == 6 || k == 7 || k == 8 ||
             k == 9 || k == 10 || k == 11 || k == 12 || k == 13;
    }
    Strings.AbsentFirstChar(resp, "搜索问答");
    assert Strings.OccursAt(resp, "绘画", 5);
    assert Strings.OccursAt(resp, "语音", 12);
    assert resp[Strings.Index(resp, "语音")] == '语';
  }

  /** A reply naming two tools selects both, earlier mention first. */
  lemma ExampleTwoIntents(appid: string, appkey: string)
    ensures Agent.ChooseTools(Names(Registry(appid, appkey)), "你需要的是绘画，也可能是语音") == ["绘画", "语音"]
  {
    var names := Names(Registry(appid, appkey));
    RegistryNamesUnambiguous(appid, appkey);
    assert names == ["搜索问答", "绘画", "语音"];
    TwoIntentsReply("你需要的是绘画，也可能是语音");
    Agent.ChooseToolsPair(names, "你需要的是绘画，也可能是语音", "绘画", "语音");
  }
}

=== FILE: translate.dfy ===
/** `translate_to_en`: the request sent to the Baidu translation service
    and the reading of its reply. The md5 digest and the random salt are
    parameters; the HTTP exchange is the `api` function. */
module Translate {
  import opened Wrappers
  import opened Strings

  /** Bounds of `random.randint(32768, 65536)`, both inclusive. */
  const SaltMin: nat := 32768
  const SaltMax: nat := 65536

  /** The form parameters posted to the service. */
  datatype Params = Params(appid: string, q: string, from: string, to: string, salt: nat, sign: string)

  /** One entry of the reply's `trans_result` list. */
  datatype Entry = Entry(dst: Option<string>)

  /** `appid + text + str(salt) + appkey`, the string whose md5 is the signature. */
  function SignInput(appid: string, text: string, salt: nat, appkey: string): (r: string)
    ensures |r| == |appid| + |text| + |Decimal(salt)| + |appkey|
    ensures r[..|appid|] == appid && r[|appid|..|appid| + |text|] == text && r[|r| - |appkey|..] == appkey
    ensures var digits := r[|appid| + |text|..|r| - |appkey|];
            AllDigits(digits) && ParseDecimal(digits) == salt
  {
    var r := appid + text + Decimal(salt) + appkey;
    assert r[|appid| + |text|..|r| - |appkey|] == Decimal(salt);
    ParseDecimalOfDecimal(salt);
    r
  }

  /** Every salt `translate_to_en` can draw is written with five digits. */
  lemma SaltFiveDigits(salt: nat)
    requires SaltMin <= salt <= SaltMax
    ensures |Decimal(salt)| == 5
  {
    DecimalFiveDigits(salt);
  }

  /** The salt is read back from the signing string at a fixed place: five
      digits after the app id and the text. */
  lemma SignInputRecoversSalt(appid: string, text: string, salt: nat, appkey: string)
    requires SaltMin <= salt <= SaltMax
    ensures var s := SignInput(appid, text, salt, appkey);
            var at := |appid| + |text|;
            |s| == at + 5 + |appkey| &&
            s[..|appid|] == appid && s[|appid|..at] == text &&
            AllDigits(s[at..at + 5]) && ParseDecimal(s[at..at + 5]) == salt &&
            s[at + 5..] == appkey
  {
    SaltFiveDigits(salt);
    ParseDecimalOfDecimal(salt);
    var s := SignInput(appid, text, salt, appkey);
    var at := |appid| + |text|;
    assert s[at..at + 5] == Decimal(salt);
  }

  /** For fixed credentials and text, distinct salts give distinct signing strings. */
  lemma SignInputInjective(appid: string, text: string, appkey: string, s1: nat, s2: nat)
    requires SaltMin <= s1 <= SaltMax && SaltMin <= s2 <= SaltMax
    requires SignInput(appid, text, s1, appkey) == SignInput(appid, text, s2, appkey)
    ensures s1 == s2
  {
    SignInputRecoversSalt(appid, text, s1, appkey);
    SignInputRecoversSalt(appid, text, s2, appkey);
  }

  /** The request `translate_to_en` posts, for the salt it drew. */
  function Request(text: string, appid: string, appkey: string, salt: nat, md5: string -> string): (r: Params)
    requires SaltMin <= salt <= SaltMax
    ensures r.salt == salt && SaltMin <= r.salt <= SaltMax
    ensures r.q == text && r.appid == appid && r.from == "zh" && r.to == "en"
    ensures r.sign == md5(SignInput(r.appid, r.q, r.salt, appkey))
  {
    Params(appid, text, "zh", "en", salt, md5(SignInput(appid, text, salt, appkey)))
  }

  /** `r["trans_result"][0]["dst"]`: the first translation, or the
      exception the subscripts raise. */
  function ReadReply(reply: Option<seq<Entry>>): (r: Result<string>)
    ensures r.Success? <==> reply.Some? && |reply.value| > 0 && reply.value[0].dst.Some?
    ensures r.Success? ==> r.value == reply.value[0].dst.value
    ensures r.Failure? ==> (r.error == IndexError <==> reply == Some([]))
    ensures r.Failure? ==> r.error == IndexError || r.error == KeyError
  {
    match reply
    case None => Failure(KeyError)
    case Some(entries) =>
      if |entries| == 0 then Failure(IndexError)
      else match entries[0].dst
        case None => Failure(KeyError)
        case Some(d) => Success(d)
  }

  /** `translate_to_en(text, appid, appkey)` with the given salt, digest and
      service. */
  function TranslateToEn(text: string, appid: string, appkey: string, salt: nat,
                         md5: string -> string, api: Params -> Option<seq<Entry>>): (r: Result<string>)
    requires SaltMin <= salt <= SaltMax
  {
    ReadReply(api(Request(text, appid, appkey, salt, md5)))
  }
}

=== FILE: wrappers.dfy ===
/** Option and Result values standing in for Python's `None` and for the
    exceptions the tools raise. */
module Wrappers {

  /** A value that may be absent (Python's `None`, or a missing JSON key). */
  datatype Option<+T> = None | Some(value: T) {

    /** The wrapped value, or `default` when there is none (Python's `dict.get(key, default)`). */
    function GetOr(default: T): T {
      match this
      case Some(v) => v
      case None => default
    }
  }

  /** The exceptions that escape the modelled code. */
  datatype Error =
    | IndexError          // `[0]` on an empty list
    | KeyError            // a subscript on a JSON object without that key
    | NotImplemented      // the base tool's `_call_api`

  /** Either a value or the exception raised instead of returning one. */
  datatype Result<+R> = Success(value: R) | Failure(error: Error) {

    predicate IsFailure() {
      Failure?
    }

    function PropagateFailure<U>(): Result<U>
      requires Failure?
    {
      Failure(error)
    }

    function Extract(): R
      requires Success?
    {
      value
    }
  }
}
